=== FILE: README.md ===
# Trend Report homepage: pagination and article cards

A Dafny model of the homepage of the Trend Report site, a Next.js front end over a
Sanity content store. The model covers the homepage component (`web/src/app/page.js`)
and the article card it renders (`web/src/components/ArticleCard.js`):

- how the `page` search parameter becomes the current page
  (`parseInt(searchParams?.page) || 1`, with JavaScript's `parseInt` modelled for leading white space, one sign, the `0x`/`0X` radix switch and the longest digit run; number precision and `-0` are left out);
- the half-open range `[startIndex, endIndex)` of the newest-first article list that a page fetches,
  and the page count `Math.ceil(totalArticles / 20)`;
- the pagination bar: when it appears, when Previous and Next are links, and where they point;
- the hero section or its "No featured article" placeholder, and the empty-list notice;
- the article card's fallbacks: a missing article renders nothing, the slug may be `{current}` or
  a bare string, the image needs both `mainImage` and its `asset`, and alt text, title and excerpt
  fall back to fixed texts.

Fetch results are inputs: the settings document, the records of one page, and the article count
are parameters of `HomePage.RenderHomePage`. Over a whole list, `Pagination.PageItems` is the
answer the store gives to a page's range.

Modules, one per concern:

| file | module | contents |
|---|---|---|
| wrappers.dfy | Wrappers | `Option`, standing for `null`/`undefined` |
| js_text.dfy | JsText | truthiness, chains of JavaScript `or` operators, template-literal text of slug values |
| js_number.dfy | JsNumber | `parseInt` without radix, decimal text of integer Numbers |
| pagination.dfy | Pagination | page parameter, page windows, page count, partition of the list |
| navigation.dfy | Navigation | pagination bar, Previous/Next links and where they land |
| content.dfy | Content | the fetched documents (article, category, hero, homepage settings) |
| article_card.dfy | ArticleCard | the card view of one article |
| home_page.dfy | HomePage | hero section, latest-articles section, assembled homepage |

The central result is `Pagination.AllPagesReassembleList`: pages `1..ceil(T/20)` put back
together give the whole list of `T` articles, in order, with nothing missing or repeated.
`Pagination.PagesPartitionPositions` states the same on positions: each position of `[0, T)` is on
exactly one page, and every page up to the last is non-empty.

Nothing clamps the page number: a negative `page` is kept (`Pagination.NegativePageIsKept`), and
its window lies below position 0. A page above 1 and past the last one fetches an empty list and
shows "No more articles found for this page."; page 1 of an empty list shows "No articles published
yet. Check back soon!".

## Model

| member | source | states |
|---|---|---|
| JsText.OrElse | web/src/components/ArticleCard.js:16 | a chain of JavaScript `or` operators ending in a default yields the first non-empty present string, or the default when none is; a non-empty default makes the result non-empty |
| JsText.TemplateText | web/src/components/ArticleCard.js:13 | a string slug is inserted as itself; `undefined`, `null` and objects become the fixed texts JavaScript prints for them |
| JsNumber.TrimStart | web/src/app/page.js:74 | `parseInt` drops exactly the leading white-space characters and stops at the first other character |
| JsNumber.DigitRun | web/src/app/page.js:74 | `parseInt` reads the longest run of digits of the radix in use |
| JsNumber.NatDigits | web/src/app/page.js:190 | the decimal text of a natural number is digits only, has no leading zero, and denotes that number |
| JsNumber.NumberToString | web/src/app/page.js:202 | the text of an integer page number is an optional minus sign (exactly for negatives) followed by digits |
| JsNumber.ParseInt | web/src/app/page.js:74 | `parseInt` reads a number only when the text, after white space, starts with a digit or a sign followed by a digit, and a negative result only after a minus sign; with the lemmas below, it reads back every integer's text, skips leading white space and a `+`, stops at the first non-digit, honours `0x`, and gives NaN for text without digits |
| JsNumber.Unsigned | web/src/app/page.js:74 | `parseInt` drops at most one leading `-` or `+`, and drops one exactly when the text starts with a sign |
| JsNumber.ReadSignedDigits | web/src/app/page.js:74 | after the sign, NaN exactly when no magnitude is read; a negative result only when the text starts with `-` |
| JsNumber.ReadMagnitude | web/src/app/page.js:74 | a magnitude is read only from text starting with a decimal digit, and always from such text when it is not a `0x` prefix |
| JsNumber.ParseIntReadsPlusSign | web/src/app/page.js:74 | a leading `+` is skipped: `+` followed by the text of n reads as n |
| JsNumber.ParseIntReadsNumberText | web/src/app/page.js:74 | `parseInt` reads back an integer's text even when non-digit text follows, except that `0x` after a lone 0 starts hex |
| JsNumber.ParseIntInvertsNumberToString | web/src/app/page.js:74 | `parseInt` of an integer's decimal text is that integer |
| JsNumber.ParseIntSkipsLeadingWhiteSpace | web/src/app/page.js:74 | a leading white-space character does not change what `parseInt` reads |
| JsNumber.ParseIntWithoutDigitsIsNaN | web/src/app/page.js:74 | text containing no decimal digit parses to NaN |
| JsNumber.ParseIntReadsHexText | web/src/app/page.js:74 | after a `0x` prefix `parseInt` reads the hexadecimal digits that follow as one number |
| JsNumber.ParseIntReadsUpperHexText | web/src/app/page.js:74 | the upper-case `0X` prefix selects radix 16 as well: `0X` followed by hex digits reads as their hexadecimal value |
| JsNumber.ParseIntNegatesAfterMinus | web/src/app/page.js:74 | a leading `-` negates what the rest reads, hexadecimal text included (`-0x1A` reads as -26), and leaves NaN as NaN |
| Pagination.JoinWithCommas | web/src/app/page.js:74 | an array converted to a string starts with its first value, followed by a comma when there are more values; an empty array gives the empty string |
| Pagination.ParamText | web/src/app/page.js:74 | `parseInt` sees a single `page` value as itself, and a repeated key's values as text that starts with the first value |
| Pagination.CurrentPage | web/src/app/page.js:74 | the current page is never 0; NaN and 0 give page 1; every other parsed integer, negatives included, is kept unchanged |
| Pagination.MissingPageIsFirstPage | web/src/app/page.js:74 | with no `page` parameter the homepage shows page 1 |
| Pagination.CurrentPageReadsNumberText | web/src/app/page.js:74 | a page number written as text is shown as that page, except 0, which is shown as page 1 |
| Pagination.NegativePageIsKept | web/src/app/page.js:74 | `?page=-3` gives current page -3: nothing clamps it |
| Pagination.LeadingWhiteSpaceIsIgnored | web/src/app/page.js:74 | white space before the parameter's text does not change the page |
| Pagination.TrailingTextIsIgnored | web/src/app/page.js:74 | text after the page number is ignored unless it continues the digits or forms a hex prefix |
| Pagination.NonNumericPageIsFirstPage | web/src/app/page.js:74 | a parameter without digits gives page 1 |
| JsNumber.ParseIntStopsAtComma | web/src/app/page.js:74 | `parseInt` stops at a comma: text from a comma on never changes what it reads |
| Pagination.RepeatedKeyReadsFirstValue | web/src/app/page.js:74 | a repeated `page` key arrives as an array, and for every array of two or more values the page is the one its first value alone gives |
| Pagination.HexPageIsRead | web/src/app/page.js:74 | a parameter `0x` followed by hex digits is read as a hexadecimal number (0 still giving page 1) |
| Pagination.PageWindow | web/src/app/page.js:38-44 | every page's window is 20 positions wide; from page 1 on it starts at or after position 0, and for pages 0 and below it ends at or before position 0 |
| Pagination.WindowsAreContiguous | web/src/app/page.js:39-42 | each page's window ends where the next page's window starts |
| Pagination.WindowsAreDisjoint | web/src/app/page.js:39-42 | no position lies in the windows of two different pages |
| Pagination.TotalPages | web/src/app/page.js:83 | the page count is the ceiling of T/20: 20 times it covers T, one page fewer does not, and it is 0 for T = 0 |
| Pagination.PagesPartitionPositions | web/src/app/page.js:39-44 | every position of `[0, T)` is on exactly one page between 1 and the page count; every such page starts inside the list; later pages start past its end |
| Pagination.PageItems | web/src/app/page.js:44 | a page's articles are at most 20 consecutive articles of the list, starting at the window's start |
| Pagination.PagesUpToArePrefix | web/src/app/page.js:38-44 | pages 1..n together are exactly the first `min(20n, T)` articles, in order |
| Pagination.AllPagesReassembleList | web/src/app/page.js:38-44 | pages 1..ceil(T/20) together are the whole list, in order, each article once |
| Pagination.LastPageIsPartlyFilled | web/src/app/page.js:83 | there are no pages exactly when there are no articles; otherwise the last page holds 1 to 20 articles |
| Pagination.PagesAfterLastAreEmpty | web/src/app/page.js:44 | a page past the last one fetches no articles instead of failing |
| Navigation.PreviousControl | web/src/app/page.js:189-195 | Previous is a link exactly when the current page is above 1 |
| Navigation.NextControl | web/src/app/page.js:201-207 | Next is a link exactly when the current page is below the page count |
| Navigation.NavigationBar | web/src/app/page.js:187-209 | the bar is shown exactly when the list needs at least two pages; it labels the current page and the page count, and its Previous and Next are exactly the controls above, so their targets are the ones the landing lemmas state |
| Navigation.PageParamOf | web/src/app/page.js:190-202 | a link target `/?page=` followed by text carries exactly that text as its `page` parameter; any other target carries none |
| Navigation.PreviousLinkShowsPreviousPage | web/src/app/page.js:190 | Previous from page 2 links to `/` and from page p > 2 to `/?page=` followed by p-1; following it from page p > 1 shows page p-1 |
| Navigation.NextLinkShowsNextPage | web/src/app/page.js:202 | an enabled Next links to `/?page=` followed by p+1; following it shows page p+1, except from page -1, whose link `/?page=0` shows page 1 |
| ArticleCard.ResolveSlug | web/src/components/ArticleCard.js:13 | a slug object with a non-empty `current` resolves to that string; every other slug value, bare strings included, is kept as it is |
| ArticleCard.CardHref | web/src/components/ArticleCard.js:13 | every card link points under `/articles/` |
| ArticleCard.TextSlugLinksToItself | web/src/components/ArticleCard.js:13 | a bare string slug `c`, the empty string included, links to `/articles/` followed by `c` |
| ArticleCard.RenderCard | web/src/components/ArticleCard.js:7-50 | a missing article renders nothing; the title and "Read More" both link to the card link of the article's slug; the image appears exactly when `mainImage` and its `asset` are present, shows that `mainImage` and links to the same place; title and excerpt are never empty |
| ArticleCard.CardTitleFallsBack | web/src/components/ArticleCard.js:26 | the title shown is the article's title when non-empty, else "Untitled Article" |
| ArticleCard.CardExcerptFallsBack | web/src/components/ArticleCard.js:40 | the excerpt shown is the article's excerpt when non-empty, else "No excerpt available." |
| ArticleCard.CardImageAltFallsBack | web/src/components/ArticleCard.js:16 | the image's alt text is its own alt, else the title, else "Article image" |
| ArticleCard.SlugShapesLinkAlike | web/src/components/ArticleCard.js:13-43 | a slug given as `{current: c}` and one given as the string `c` both link to `/articles/c` |
| ArticleCard.UnusableSlugLinks | web/src/components/ArticleCard.js:13 | without a usable slug the link still renders, ending in `null`, `undefined` or `[object Object]` |
| HomePage.CategoryLinkOf | web/src/app/page.js:139-141 | a hero category link points to `/categories/` followed by the category's slug text and shows the category's title |
| HomePage.HeroViewOf | web/src/app/page.js:103-159 | the hero links to `/articles/` followed by the slug's text; it shows the hero's `mainImage` exactly when it and its `asset` are present, with alt text from the image's alt, else the title, else "Hero article image"; the title, else "Featured Article"; the hero's own excerpt and publication date, each only when non-empty; one link per category to `/categories/` followed by that category's slug text and showing its title; and "Read More" only for a truthy slug |
| HomePage.HeroSectionOf | web/src/app/page.js:82 | the hero section is shown exactly when the settings exist and their hero reference resolves, and it then shows that hero article |
| HomePage.DanglingHeroShowsPlaceholder | web/src/app/page.js:160-164 | missing settings or a dangling hero reference show the "No featured article" placeholder |
| HomePage.LatestArticles | web/src/app/page.js:174-184 | when the page has records, the grid holds exactly the card of each record, in order; otherwise a notice that says "No more articles" exactly when the current page is above 1 |
| HomePage.LatestArticlesOverList | web/src/app/page.js:174-184 | over a full list, a page p >= 1 shows cards exactly when p is at most the page count, and "No articles published yet" on page 1 means the list is empty |
| HomePage.RenderHomePage | web/src/app/page.js:72-214 | the homepage shows the settings' hero exactly when it resolves; the grid, one card per fetched record in order, exactly when the page has records, else a notice saying "No more articles" exactly when the parsed page is above 1; and the pagination bar exactly when there are two or more pages, labelled "Page p of n" with the parsed page and the page count and carrying its Previous and Next controls |

## Left out

- Query text and fetching: the GROQ queries, `client.fetch` and the `Promise.all` joins are remote I/O. Their results are parameters of the model.
- Pagination.PageItems: defined for pages 1 and above only. For pages 0 and below the code asks the store for a range below position 0 (`[-40...-20]` for page -1). The store's query language counts negative indices from the end of the list, so such a page would show articles from near the end; that reading of negative ranges is not modelled.
- HomePage.LatestArticlesOverList: stated for pages 1 and above only, for the reason given for `Pagination.PageItems`.
- HomePage.LatestArticles: page records are never null here. A list query never returns null entries, and a null entry would throw at `article._id` before the card's null guard runs.
- Number precision: page numbers and positions are unbounded integers. Rounding of `parseInt` results beyond 2^53, `Infinity`, the exponent form JavaScript prints for integers of 10^21 and above, and floating-point `(page - 1) * 20` are not modelled.
- `-0`: `parseInt("-0")` is `-0`. The model reports it as 0, and `|| 1` turns both into page 1.
- URL parsing by the framework: `Navigation.PageParamOf` reads the `page` parameter only from the two link shapes the homepage produces (`/` and `/?page=<n>`). Percent-decoding and other parameters are not modelled.
- Non-string `page` values other than an array of strings.
- Image URLs: `urlFor` and `next/image` are external libraries. An image view carries the `mainImage` it would be built from.
- Date formatting: `toLocaleDateString` depends on the locale, so the hero keeps the raw `publishedAt` text.
- Hero category entries are taken as already-resolved records. A dangling category reference in the hero's list is not modelled.
- Markup, styling classes, React keys (`_id`) and the empty heading `<span>` shown when there are articles.
- The header, footer, mobile menu, categories dropdown, layout, error, loading and not-found pages, the manifest, and the article and category pages are not part of this model. Rich-text rendering and related-article ranking are not in the homepage or the card, so they are not modelled.

=== FILE: article_card.dfy ===
/**
 * The article card of the "Latest Articles" grid: what it shows for one
 * article record, with the fallbacks it applies to missing fields.
 */
module ArticleCard {
  import opened Wrappers
  import opened JsText
  import opened Content

  const ArticlePathPrefix: string := "/articles/"
  const ImageAltDefault: string := "Article image"
  const TitleDefault: string := "Untitled Article"
  const ExcerptDefault: string := "No excerpt available."

  /** The linked image of a card or of the hero. */
  datatype ImageView = ImageView(href: string, image: MainImage, alt: string)

  /** What one card shows: optional image, linked title, excerpt and a "Read More" link. */
  datatype Card = Card(image: Option<ImageView>, titleHref: string, title: string, excerpt: string, readMoreHref: string)

  /** `slug?.current || slug`: the slug object's `current` when truthy, else the slug value itself. */
  function ResolveSlug(slug: SlugValue): (r: SlugValue)
    ensures slug.SlugObject? && Truthy(slug.current) ==> r == Text(slug.current.value)
    ensures !(slug.SlugObject? && Truthy(slug.current)) ==> r == slug
    ensures r.SlugObject? ==> !Truthy(r.current)
  {
    if slug.SlugObject? && Truthy(slug.current) then Text(slug.current.value) else slug
  }

  /** The article page a card links to. */
  function CardHref(slug: SlugValue): (href: string)
    ensures |href| >= |ArticlePathPrefix| && href[..|ArticlePathPrefix|] == ArticlePathPrefix
  {
    ArticlePathPrefix + TemplateText(ResolveSlug(slug))
  }

  /** A bare string slug is used as it is, the empty string included (the link is then `/articles/`). */
  lemma TextSlugLinksToItself(c: string)
    ensures CardHref(Text(c)) == ArticlePathPrefix + c
  {
  }

  /** `<ArticleCard article={article} />`: nothing for a missing article, otherwise the card. */
  function RenderCard(article: Option<ArticleSummary>): (r: Option<Card>)
    ensures r.None? <==> article.None?
    ensures r.Some? ==> (r.value.image.Some? <==> ImagePresent(article.value.mainImage))
    ensures r.Some? ==> r.value.titleHref == CardHref(article.value.slug)
    ensures r.Some? ==> r.value.titleHref == r.value.readMoreHref
    ensures r.Some? && r.value.image.Some? ==> r.value.image.value.image == article.value.mainImage.value
    ensures r.Some? && r.value.image.Some? ==> r.value.image.value.href == r.value.titleHref
    ensures r.Some? ==> r.value.title != "" && r.value.excerpt != ""
  {
    if article.None? then None
    else
      var a := article.value;
      var href := CardHref(a.slug);
      var image :=
        if ImagePresent(a.mainImage) then
          Some(ImageView(href, a.mainImage.value, OrElse([a.mainImage.value.alt, a.title], ImageAltDefault)))
        else None;
      Some(Card(image, href, OrElse([a.title], TitleDefault), OrElse([a.excerpt], ExcerptDefault), href))
  }

  /** The card shows the title when it is a non-empty string, else "Untitled Article". */
  lemma CardTitleFallsBack(a: ArticleSummary)
    ensures RenderCard(Some(a)).value.title == (if Truthy(a.title) then a.title.value else TitleDefault)
  {
    assert NoneTruthyBefore([a.title], 0);
  }

  /** The card shows the excerpt when it is a non-empty string, else "No excerpt available.". */
  lemma CardExcerptFallsBack(a: ArticleSummary)
    ensures RenderCard(Some(a)).value.excerpt == (if Truthy(a.excerpt) then a.excerpt.value else ExcerptDefault)
  {
    assert NoneTruthyBefore([a.excerpt], 0);
  }

  /** The image's alt text is the image's own alt, else the title, else "Article image". */
  lemma CardImageAltFallsBack(a: ArticleSummary)
    requires ImagePresent(a.mainImage)
    ensures RenderCard(Some(a)).value.image.value.alt ==
      if Truthy(a.mainImage.value.alt) then a.mainImage.value.alt.value
      else if Truthy(a.title) then a.title.value
      else ImageAltDefault
  {
    var cands := [a.mainImage.value.alt, a.title];
    assert NoneTruthyBefore(cands, 0);
    if !Truthy(a.mainImage.value.alt) {
      assert NoneTruthyBefore(cands, 1);
      if !Truthy(a.title) {
        assert NoneTruthyBefore(cands, 2);
      }
    }
  }

  /**
   * A slug given as `{current: c}` and one given as the bare string `c` lead
   * to the same article page, `/articles/c`, from all three links.
   */
  lemma SlugShapesLinkAlike(a: ArticleSummary, c: string)
    requires c != ""
    ensures var byObject := RenderCard(Some(a.(slug := SlugObject(Some(c))))).value;
            var byText := RenderCard(Some(a.(slug := Text(c)))).value;
            byObject.titleHref == byText.titleHref == ArticlePathPrefix + c
  {
  }

  /**
   * Without a usable slug the links still render: a slug object with no
   * `current` is printed as `[object Object]`, a missing slug as `null` or `undefined`.
   */
  lemma UnusableSlugLinks(a: ArticleSummary)
    requires a.slug.Null? || a.slug.Undefined? || (a.slug.SlugObject? && !Truthy(a.slug.current))
    ensures RenderCard(Some(a)).value.titleHref ==
      ArticlePathPrefix + (if a.slug.Null? then "null" else if a.slug.Undefined? then "undefined" else "[object Object]")
  {
  }
}

=== FILE: content.dfy ===
/**
 * The documents the homepage receives from the content store, as its queries
 * project them. Every field may be missing: the store does not re-validate
 * what the authoring schema requires.
 */
module Content {
  import opened Wrappers
  import opened JsText

  /** A dereferenced image asset; its URL and dimensions belong to the image service. */
  datatype Asset = Asset(id: Option<string>, url: Option<string>)

  /** An article's `mainImage`: the asset reference (null when dangling) and its alt text. */
  datatype MainImage = MainImage(asset: Option<Asset>, alt: Option<string>)

  /** An article in the "Latest Articles" list, or any record handed to the article card. */
  datatype ArticleSummary = ArticleSummary(
    title: Option<string>,
    slug: SlugValue,
    mainImage: Option<MainImage>,
    excerpt: Option<string>)

  /** A category of the hero article, with its slug projected to a string or null. */
  datatype CategorySummary = CategorySummary(title: Option<string>, slug: SlugValue)

  /** The article the homepage settings designate as hero, with its references expanded. */
  datatype HeroArticle = HeroArticle(
    title: Option<string>,
    slug: SlugValue,
    mainImage: Option<MainImage>,
    excerpt: Option<string>,
    publishedAt: Option<string>,
    categories: Option<seq<CategorySummary>>)

  /** The singleton homepage settings document; `heroArticle` is null when its reference dangles. */
  datatype HomepageSettings = HomepageSettings(title: Option<string>, heroArticle: Option<HeroArticle>)

  /** Both a `mainImage` and its `asset` are present, the condition for drawing an image. */
  predicate ImagePresent(mainImage: Option<MainImage>) {
    mainImage.Some? && mainImage.value.asset.Some?
  }

}

=== FILE: home_page.dfy ===
/**
 * The homepage: the hero section (or its placeholder), the paginated
 * "Latest Articles" list (or its empty-list notice), and the navigation bar,
 * decided from the request's `page` parameter and the fetched documents.
 */
module HomePage {
  import opened Wrappers
  import opened JsText
  import opened Content
  import opened Pagination
  import opened Navigation
  import opened ArticleCard

  const CategoryPathPrefix: string := "/categories/"
  const HeroAltDefault: string := "Hero article image"
  const HeroTitleDefault: string := "Featured Article"
  const NoMoreArticlesNotice: string := "No more articles found for this page."
  const NoArticlesYetNotice: string := "No articles published yet. Check back soon!"

  /** A category link under the hero's excerpt. */
  datatype CategoryLink = CategoryLink(href: string, title: Option<string>)

  /** What the hero section shows. `publishedAt` is the raw timestamp; its formatting is not modelled. */
  datatype HeroView = HeroView(
    image: Option<ImageView>,
    href: string,
    title: string,
    excerpt: Option<string>,
    categories: seq<CategoryLink>,
    publishedAt: Option<string>,
    readMoreHref: Option<string>)

  /** The top of the homepage: the featured article, or the "No featured article" placeholder. */
  datatype HeroSection = Featured(hero: HeroView) | NoFeaturedArticle

  /** The "Latest Articles" body: a grid of cards, or a notice when the page has none. */
  datatype ListSection = Grid(cards: seq<Card>) | EmptyNotice(message: string)

  datatype HomeView = HomeView(hero: HeroSection, latest: ListSection, nav: Option<Nav>)

  /** The link to a category's page, showing its title. */
  function CategoryLinkOf(c: CategorySummary): (l: CategoryLink)
    ensures |l.href| >= |CategoryPathPrefix| && l.href[..|CategoryPathPrefix|] == CategoryPathPrefix
    ensures l.href[|CategoryPathPrefix|..] == TemplateText(c.slug) && l.title == c.title
  {
    CategoryLink(CategoryPathPrefix + TemplateText(c.slug), c.title)
  }

  /**
   * The hero section's contents. Unlike the card, the hero links use the
   * projected slug as it is, and "Read More" appears only for a truthy slug.
   */
  function HeroViewOf(h: HeroArticle): (v: HeroView)
    ensures v.href == ArticlePathPrefix + TemplateText(h.slug)
    ensures v.image.Some? <==> ImagePresent(h.mainImage)
    ensures v.image.Some? ==> v.image.value.href == v.href
    ensures v.title == (if Truthy(h.title) then h.title.value else HeroTitleDefault)
    ensures v.image.Some? ==>
      v.image.value.alt ==
        (if Truthy(h.mainImage.value.alt) then h.mainImage.value.alt.value
         else if Truthy(h.title) then h.title.value
         else HeroAltDefault)
    ensures v.image.Some? ==> v.image.value.image == h.mainImage.value
    ensures v.excerpt == (if Truthy(h.excerpt) then h.excerpt else None)
    ensures v.publishedAt == (if Truthy(h.publishedAt) then h.publishedAt else None)
    ensures v.readMoreHref.Some? <==> SlugTruthy(h.slug)
    ensures v.readMoreHref.Some? ==> v.readMoreHref.value == v.href
    ensures h.categories.Some? ==> |v.categories| == |h.categories.value|
    ensures h.categories.None? ==> v.categories == []
    ensures h.categories.Some? ==> forall k :: 0 <= k < |v.categories| ==>
      && v.categories[k].href == CategoryPathPrefix + TemplateText(h.categories.value[k].slug)
      && v.categories[k].title == h.categories.value[k].title
  {
    var href := ArticlePathPrefix + TemplateText(h.slug);
    var image :=
      if ImagePresent(h.mainImage) then
        Some(ImageView(href, h.mainImage.value, OrElse([h.mainImage.value.alt, h.title], HeroAltDefault)))
      else None;
    var categories :=
      if h.categories.Some? && |h.categories.value| > 0 then
        seq(|h.categories.value|, k requires 0 <= k < |h.categories.value| => CategoryLinkOf(h.categories.value[k]))
      else [];
    HeroView(
      image,
      href,
      OrElse([h.title], HeroTitleDefault),
      if Truthy(h.excerpt) then h.excerpt else None,
      categories,
      if Truthy(h.publishedAt) then h.publishedAt else None,
      if SlugTruthy(h.slug) then Some(href) else None)
  }

  /** `settings?.heroArticle`: the hero when both the settings and their hero reference resolve. */
  function HeroSectionOf(settings: Option<HomepageSettings>): (s: HeroSection)
    ensures s.Featured? <==> settings.Some? && settings.value.heroArticle.Some?
    ensures s.Featured? ==> s.hero == HeroViewOf(settings.value.heroArticle.value)
  {
    if settings.Some? && settings.value.heroArticle.Some? then Featured(HeroViewOf(settings.value.heroArticle.value))
    else NoFeaturedArticle
  }

  /** A dangling hero reference degrades to the placeholder, never to an error. */
  lemma DanglingHeroShowsPlaceholder(title: Option<string>)
    ensures HeroSectionOf(Some(HomepageSettings(title, None))) == NoFeaturedArticle
    ensures HeroSectionOf(None) == NoFeaturedArticle
  {
  }

  /**
   * The "Latest Articles" body for page `current`: one card per fetched
   * record when there are any, otherwise a notice that only depends on
   * whether `current` is past the first page.
   */
  function LatestArticles(current: int, fetched: Option<seq<ArticleSummary>>): (l: ListSection)
    ensures l.Grid? <==> fetched.Some? && |fetched.value| > 0
    ensures l.Grid? ==> |l.cards| == |fetched.value|
    ensures l.Grid? ==> forall k :: 0 <= k < |l.cards| ==> RenderCard(Some(fetched.value[k])) == Some(l.cards[k])
    ensures l.EmptyNotice? ==> (l.message == NoMoreArticlesNotice <==> current > 1)
    ensures l.EmptyNotice? ==> l.message in {NoMoreArticlesNotice, NoArticlesYetNotice}
  {
    if fetched.Some? && |fetched.value| > 0 then
      Grid(seq(|fetched.value|, k requires 0 <= k < |fetched.value| => RenderCard(Some(fetched.value[k])).value))
    else if current > 1 then EmptyNotice(NoMoreArticlesNotice)
    else EmptyNotice(NoArticlesYetNotice)
  }

  /**
   * Over a newest-first list `all` the store answers with `PageItems`: page
   * `current` has cards exactly when it is one of the list's pages, and
   * "No articles published yet" on the first page means there are none.
   */
  lemma LatestArticlesOverList(current: int, all: seq<ArticleSummary>)
    requires current >= 1
    ensures LatestArticles(current, Some(PageItems(all, current))).Grid? <==> current <= TotalPages(|all|)
    ensures LatestArticles(current, Some(PageItems(all, current))) == EmptyNotice(NoArticlesYetNotice) ==> |all| == 0
  {
    if current <= TotalPages(|all|) {
      PagesPartitionPositions(|all|);
    }
  }

  /**
   * `HomePage({searchParams})`. `fetched` and `totalArticles` are the store's
   * answers to the range `PageWindow(CurrentPage(param))` and to the article
   * count; `settings` is the homepage settings document.
   */
  function RenderHomePage(
    param: PageParam,
    settings: Option<HomepageSettings>,
    fetched: Option<seq<ArticleSummary>>,
    totalArticles: nat): (v: HomeView)
    ensures v.hero.Featured? <==> settings.Some? && settings.value.heroArticle.Some?
    ensures v.latest.Grid? <==> fetched.Some? && |fetched.value| > 0
    ensures v.nav.Some? <==> TotalPages(totalArticles) >= 2
    ensures v.nav.Some? ==> v.nav.value.current == CurrentPage(param) && v.nav.value.current != 0
    ensures v.nav.Some? ==> v.nav.value.totalPages == TotalPages(totalArticles)
    ensures v.nav.Some? ==> v.nav.value.previous == PreviousControl(CurrentPage(param))
    ensures v.nav.Some? ==> v.nav.value.next == NextControl(CurrentPage(param), TotalPages(totalArticles))
    ensures v.hero.Featured? ==> v.hero.hero == HeroViewOf(settings.value.heroArticle.value)
    ensures v.latest.Grid? ==> |v.latest.cards| == |fetched.value|
    ensures v.latest.Grid? ==> forall k :: 0 <= k < |v.latest.cards| ==> RenderCard(Some(fetched.value[k])) == Some(v.latest.cards[k])
    ensures v.latest.EmptyNotice? ==> (v.latest.message == NoMoreArticlesNotice <==> CurrentPage(param) > 1)
  {
    var current := CurrentPage(param);
    HomeView(HeroSectionOf(settings), LatestArticles(current, fetched), NavigationBar(current, totalArticles))
  }
}

=== FILE: js_number.dfy ===
/**
 * JavaScript's global `parseInt` (called with no radix) and the decimal text
 * of an integer-valued Number, the two conversions between page numbers and
 * URL text. Numbers are modelled as unbounded integers.
 */
module JsNumber {
  import opened Wrappers

  /** StrWhiteSpaceChar of ECMAScript: WhiteSpace (tab, VT, FF, ZWNBSP, every Zs) and LineTerminator. */
  predicate IsStrWhiteSpace(c: char) {
    || c == '\t' || c == '\n' || c == '\U{B}' || c == '\U{C}' || c == '\r'
    || c == ' ' || c == '\U{A0}' || c == '\U{1680}' || ('\U{2000}' <= c <= '\U{200A}')
    || c == '\U{2028}' || c == '\U{2029}' || c == '\U{202F}' || c == '\U{205F}'
    || c == '\U{3000}' || c == '\U{FEFF}'
  }

  predicate IsDecimalDigit(c: char) {
    '0' <= c <= '9'
  }

  /** A digit of the given radix; `parseInt` without a radix only ever uses 10 or 16. */
  predicate IsRadixDigit(c: char, hex: bool) {
    IsDecimalDigit(c) || (hex && ('a' <= c <= 'f' || 'A' <= c <= 'F'))
  }

  function DigitValue(c: char): (d: nat)
    requires IsRadixDigit(c, true)
    ensures d < 16
    ensures IsDecimalDigit(c) <==> d < 10
  {
    if IsDecimalDigit(c) then c as int - '0' as int
    else if 'a' <= c <= 'f' then c as int - 'a' as int + 10
    else c as int - 'A' as int + 10
  }

  /** `s` with its leading white space removed. */
  function TrimStart(s: string): (r: string)
    ensures |r| <= |s| && r == s[|s| - |r|..]
    ensures forall i :: 0 <= i < |s| - |r| ==> IsStrWhiteSpace(s[i])
    ensures |r| > 0 ==> !IsStrWhiteSpace(r[0])
  {
    if |s| > 0 && IsStrWhiteSpace(s[0]) then
      var r := TrimStart(s[1..]);
      assert forall i :: 1 <= i < |s| ==> s[i] == s[1..][i - 1];
      assert s[1..][|s| - 1 - |r|..] == s[|s| - |r|..];
      r
    else s
  }

  /** Text that does not start with white space is left as it is. */
  lemma TrimStartKeepsUnspacedText(s: string)
    requires |s| > 0 && (IsDecimalDigit(s[0]) || s[0] == '-' || s[0] == '+')
    ensures TrimStart(s) == s
  {
    assert !IsStrWhiteSpace(s[0]);
  }

  /** Length of the longest prefix of `s` made of digits of the radix. */
  function DigitRun(s: string, hex: bool): (n: nat)
    ensures n <= |s|
    ensures forall i :: 0 <= i < n ==> IsRadixDigit(s[i], hex)
    ensures n < |s| ==> !IsRadixDigit(s[n], hex)
  {
    if |s| > 0 && IsRadixDigit(s[0], hex) then 1 + DigitRun(s[1..], hex) else 0
  }

  predicate AllRadixDigits(z: string, hex: bool) {
    forall i :: 0 <= i < |z| ==> IsRadixDigit(z[i], hex)
  }

  /** The integer a digit string denotes in radix 10 or 16, most significant digit first. */
  function DigitsValue(z: string, hex: bool): nat
    requires AllRadixDigits(z, hex)
  {
    if |z| == 0 then 0
    else DigitsValue(z[..|z| - 1], hex) * (if hex then 16 else 10) + DigitValue(z[|z| - 1])
  }

  /** True when `u` begins with the `0x` / `0X` prefix that switches `parseInt` to radix 16. */
  predicate HasHexPrefix(u: string) {
    |u| >= 2 && u[0] == '0' && (u[1] == 'x' || u[1] == 'X')
  }

  /** `t` with its sign (if any) removed: at most one leading `-` or `+` is dropped. */
  function Unsigned(t: string): (u: string)
    ensures |u| <= |t| <= |u| + 1 && u == t[|t| - |u|..]
    ensures |u| < |t| <==> |t| > 0 && (t[0] == '-' || t[0] == '+')
  {
    if |t| > 0 && (t[0] == '-' || t[0] == '+') then t[1..] else t
  }

  /**
   * `parseInt(s)`: None stands for NaN. Leading white space and one sign are
   * skipped, a `0x` prefix selects radix 16, and the longest run of digits
   * that follows is read; anything after it is ignored. `-0` is reported as
   * `Some(0)`, which every caller here treats alike (both are falsy).
   */
  function ParseInt(s: string): (r: Option<int>)
    ensures var t := TrimStart(s);
            r.Some? ==> |t| > 0 && (IsDecimalDigit(t[0]) || ((t[0] == '-' || t[0] == '+') && |t| > 1 && IsDecimalDigit(t[1])))
    ensures r.Some? && r.value < 0 ==> TrimStart(s)[0] == '-'
  {
    ReadSignedDigits(TrimStart(s))
  }

  /** What `parseInt` reads from text whose leading white space is already gone. */
  function ReadSignedDigits(t: string): (r: Option<int>)
    ensures r.None? <==> ReadMagnitude(Unsigned(t)).None?
    ensures r.Some? && r.value < 0 ==> |t| > 0 && t[0] == '-'
  {
    var negative := |t| > 0 && t[0] == '-';
    match ReadMagnitude(Unsigned(t))
    case None => None
    case Some(m) => var magnitude: int := m; Some(if negative then -magnitude else magnitude)
  }

  /** The magnitude read after the sign: a `0x` prefix selects radix 16, then the longest digit run. */
  function ReadMagnitude(u: string): (r: Option<nat>)
    ensures r.Some? ==> |u| > 0 && IsDecimalDigit(u[0])
    ensures |u| > 0 && IsDecimalDigit(u[0]) && !HasHexPrefix(u) ==> r.Some?
  {
    var hex := HasHexPrefix(u);
    var v := if hex then u[2..] else u;
    var n := DigitRun(v, hex);
    if n == 0 then None else Some(DigitsValue(v[..n], hex))
  }

  /** Decimal digits of a natural number, without leading zeros. */
  function NatDigits(n: nat): (z: string)
    ensures |z| > 0
    ensures AllRadixDigits(z, false)
    ensures z[0] == '0' ==> n == 0
    ensures DigitsValue(z, false) == n
  {
    if n < 10 then
      var z := ['0' + n as char];
      assert z[..0] == [];
      z
    else
      var prefix := NatDigits(n / 10);
      var z := prefix + ['0' + (n % 10) as char];
      assert z[..|z| - 1] == prefix;
      z
  }

  /** The text `${n}` produces for an integer-valued Number (an optional minus sign, then digits). */
  function NumberToString(n: int): (s: string)
    ensures |s| > 0
    ensures n < 0 <==> s[0] == '-'
    ensures forall i :: 0 < i < |s| ==> IsDecimalDigit(s[i])
  {
    if n < 0 then "-" + NatDigits(-n) else NatDigits(n)
  }

  /** The digit run of `z + rest` is exactly `z` when `rest` does not continue it. */
  lemma {:induction false} DigitRunStopsAfter(z: string, rest: string, hex: bool)
    requires AllRadixDigits(z, hex)
    requires rest == [] || !IsRadixDigit(rest[0], hex)
    ensures DigitRun(z + rest, hex) == |z|
  {
    if |z| > 0 {
      assert (z + rest)[1..] == z[1..] + rest;
      DigitRunStopsAfter(z[1..], rest, hex);
    } else {
      assert z + rest == rest;
    }
  }

  /** Decimal digits followed by a non-digit are read as their value. */
  lemma ReadMagnitudeOfDigits(z: string, rest: string)
    requires |z| > 0 && AllRadixDigits(z, false)
    requires z[0] == '0' ==> |z| == 1
    requires rest == [] || !IsDecimalDigit(rest[0])
    requires z[0] == '0' && rest != [] ==> rest[0] != 'x' && rest[0] != 'X'
    ensures ReadMagnitude(z + rest) == Some(DigitsValue(z, false))
  {
    var u := z + rest;
    assert !HasHexPrefix(u) by {
      if |z| == 1 && rest != [] {
        assert u[1] == rest[0];
      } else if |z| > 1 {
        assert u[1] == z[1];
      }
    }
    DigitRunStopsAfter(z, rest, false);
    assert u[..|z|] == z;
  }

  /** The text of an integer, followed by anything, starts with no white space to trim. */
  lemma NumberTextIsTrimmed(n: int, rest: string)
    ensures TrimStart(NumberToString(n) + rest) == NumberToString(n) + rest
  {
    var s := NumberToString(n) + rest;
    assert s[0] == NumberToString(n)[0];
    TrimStartKeepsUnspacedText(s);
  }

  /** Removing the sign from an integer's text leaves the digits of its magnitude. */
  lemma NumberTextUnsigned(n: int, rest: string)
    ensures Unsigned(NumberToString(n) + rest) == NatDigits(if n < 0 then -n else n) + rest
  {
    var u := NatDigits(if n < 0 then -n else n) + rest;
    if n < 0 {
      assert NumberToString(n) + rest == "-" + u;
      assert ("-" + u)[1..] == u;
    } else {
      assert NatDigits(n)[0] != '-';
    }
  }

  /**
   * `parseInt` reads back the decimal text of any integer, also when other
   * text follows it, as long as that text does not start with a digit (and,
   * after a lone `0`, does not start with `x`, which would make it a hex prefix).
   */
  lemma ParseIntReadsNumberText(n: int, rest: string)
    requires rest == [] || !IsDecimalDigit(rest[0])
    requires n == 0 && rest != [] ==> rest[0] != 'x' && rest[0] != 'X'
    ensures ParseInt(NumberToString(n) + rest) == Some(n)
  {
    var s := NumberToString(n) + rest;
    var magnitude: nat := if n < 0 then -n else n;
    NumberTextIsTrimmed(n, rest);
    NumberTextUnsigned(n, rest);
    ReadMagnitudeOfDigits(NatDigits(magnitude), rest);
    assert ReadMagnitude(Unsigned(s)) == Some(magnitude);
    assert (|s| > 0 && s[0] == '-') <==> n < 0;
  }

  /** After a `0x` prefix, the hexadecimal digits that follow are read as one number. */
  lemma ParseIntReadsHexText(digits: string)
    requires |digits| > 0 && AllRadixDigits(digits, true)
    ensures ParseInt("0x" + digits) == Some(DigitsValue(digits, true))
  {
    var t := "0x" + digits;
    assert t[0] == '0';
    TrimStartKeepsUnspacedText(t);
    assert Unsigned(t) == t by {
      assert t[0] == '0';
    }
    assert ReadMagnitude(t) == Some(DigitsValue(digits, true)) by {
      assert HasHexPrefix(t);
      assert t[2..] == digits;
      assert digits + [] == digits;
      DigitRunStopsAfter(digits, [], true);
      assert digits[..|digits|] == digits;
    }
    assert t[0] != '-';
  }

  /** The upper-case `0X` prefix selects radix 16 just as `0x` does. */
  lemma ParseIntReadsUpperHexText(digits: string)
    requires |digits| > 0 && AllRadixDigits(digits, true)
    ensures ParseInt("0X" + digits) == Some(DigitsValue(digits, true))
  {
    var t := "0X" + digits;
    assert t[0] == '0';
    TrimStartKeepsUnspacedText(t);
    assert Unsigned(t) == t by {
      assert t[0] == '0';
    }
    assert ReadMagnitude(t) == Some(DigitsValue(digits, true)) by {
      assert HasHexPrefix(t);
      assert t[2..] == digits;
      assert digits + [] == digits;
      DigitRunStopsAfter(digits, [], true);
      assert digits[..|digits|] == digits;
    }
    assert t[0] != '-';
  }

  /**
   * A minus sign negates whatever the unsigned text reads, decimal or
   * hexadecimal alike, and leaves NaN as NaN.
   */
  lemma ParseIntNegatesAfterMinus(u: string)
    requires |u| > 0 && IsDecimalDigit(u[0])
    ensures ParseInt(['-'] + u) == (if ParseInt(u).Some? then Some(-ParseInt(u).value) else None)
  {
    var t := ['-'] + u;
    TrimStartKeepsUnspacedText(u);
    TrimStartKeepsUnspacedText(t);
    assert t[1..] == u;
    assert Unsigned(t) == u;
    assert Unsigned(u) == u;
  }

  /** A page number written as text is read back unchanged. */
  lemma ParseIntInvertsNumberToString(n: int)
    ensures ParseInt(NumberToString(n)) == Some(n)
  {
    ParseIntReadsNumberText(n, "");
    assert NumberToString(n) + "" == NumberToString(n);
  }

  /** Leading white space does not change what `parseInt` reads. */
  lemma ParseIntSkipsLeadingWhiteSpace(c: char, s: string)
    requires IsStrWhiteSpace(c)
    ensures ParseInt([c] + s) == ParseInt(s)
  {
    assert ([c] + s)[1..] == s;
    assert TrimStart([c] + s) == TrimStart(s);
  }

  /** Text without a single decimal digit parses to NaN. */
  lemma ParseIntWithoutDigitsIsNaN(s: string)
    requires forall i :: 0 <= i < |s| ==> !IsDecimalDigit(s[i])
    ensures ParseInt(s) == None
  {
    var t := TrimStart(s);
    var u := Unsigned(t);
    assert forall i :: 0 <= i < |u| ==> u[i] == s[|s| - |u| + i];
    assert !HasHexPrefix(u);
    assert u == [] || !IsRadixDigit(u[0], false);
  }

  /** Trimming `s + r` trims `s` alone when `r` starts with a comma. */
  lemma {:induction false} TrimStartBeforeComma(s: string, r: string)
    requires |r| > 0 && r[0] == ','
    ensures TrimStart(s + r) == TrimStart(s) + r
  {
    if |s| > 0 {
      assert (s + r)[0] == s[0];
      if IsStrWhiteSpace(s[0]) {
        assert (s + r)[1..] == s[1..] + r;
        TrimStartBeforeComma(s[1..], r);
      }
    } else {
      assert s + r == r;
      assert !IsStrWhiteSpace(r[0]);
    }
  }

  /** Removing the sign of `t + r` removes the sign of `t` when `r` starts with a comma. */
  lemma UnsignedBeforeComma(t: string, r: string)
    requires |r| > 0 && r[0] == ','
    ensures Unsigned(t + r) == Unsigned(t) + r
  {
    if |t| > 0 {
      assert (t + r)[0] == t[0];
      assert (t + r)[1..] == t[1..] + r;
    } else {
      assert t + r == r;
    }
  }

  /** A comma ends the digit run. */
  lemma {:induction false} DigitRunBeforeComma(v: string, r: string, hex: bool)
    requires |r| > 0 && r[0] == ','
    ensures DigitRun(v + r, hex) == DigitRun(v, hex)
  {
    if |v| > 0 {
      assert (v + r)[0] == v[0];
      assert (v + r)[1..] == v[1..] + r;
      DigitRunBeforeComma(v[1..], r, hex);
    } else {
      assert v + r == r;
    }
  }

  /** The magnitude read from `u + r` is the one read from `u` when `r` starts with a comma. */
  lemma ReadMagnitudeBeforeComma(u: string, r: string)
    requires |r| > 0 && r[0] == ','
    ensures ReadMagnitude(u + r) == ReadMagnitude(u)
  {
    var w := u + r;
    assert HasHexPrefix(w) == HasHexPrefix(u) by {
      if |u| >= 2 {
        assert w[0] == u[0] && w[1] == u[1];
      } else if |u| == 1 {
        assert w[1] == ',';
      } else {
        assert w[0] == ',';
      }
    }
    var hex := HasHexPrefix(u);
    var v := if hex then u[2..] else u;
    var vw := if hex then w[2..] else w;
    assert vw == v + r;
    DigitRunBeforeComma(v, r, hex);
    var n := DigitRun(v, hex);
    assert vw[..n] == v[..n];
  }

  /** Reading sign and digits of `t + r` reads those of `t` when `r` starts with a comma. */
  lemma ReadSignedDigitsBeforeComma(t: string, r: string)
    requires |r| > 0 && r[0] == ','
    ensures ReadSignedDigits(t + r) == ReadSignedDigits(t)
  {
    UnsignedBeforeComma(t, r);
    ReadMagnitudeBeforeComma(Unsigned(t), r);
    assert ReadMagnitude(Unsigned(t + r)) == ReadMagnitude(Unsigned(t));
    if |t| > 0 {
      assert (t + r)[0] == t[0];
    } else {
      assert (t + r)[0] == ',';
    }
  }

  /** `parseInt` stops at a comma: `parseInt(s + "," + ...)` is `parseInt(s)`. */
  lemma ParseIntStopsAtComma(s: string, r: string)
    requires |r| > 0 && r[0] == ','
    ensures ParseInt(s + r) == ParseInt(s)
  {
    TrimStartBeforeComma(s, r);
    ReadSignedDigitsBeforeComma(TrimStart(s), r);
  }

  /** A leading `+` is skipped: `parseInt("+5")` is 5. */
  lemma ParseIntReadsPlusSign(n: nat)
    ensures ParseInt("+" + NumberToString(n)) == Some(n)
  {
    var z := NatDigits(n);
    var s := "+" + z;
    TrimStartKeepsUnspacedText(s);
    assert s[1..] == z;
    assert Unsigned(s) == z;
    assert z + [] == z;
    ReadMagnitudeOfDigits(z, []);
    assert ReadSignedDigits(s) == Some(n);
  }
}

=== FILE: js_text.dfy ===
/**
 * The few pieces of JavaScript string semantics the homepage relies on:
 * truthiness of an optional string, the value of an `a || b || c` chain,
 * and the text a template literal inserts for a slug value.
 */
module JsText {
  import opened Wrappers

  /** A string field read from a content document is truthy iff present and non-empty. */
  predicate Truthy(v: Option<string>) {
    v.Some? && v.value != ""
  }

  /** No candidate before position `k` is truthy. */
  predicate NoneTruthyBefore(cands: seq<Option<string>>, k: nat)
    requires k <= |cands|
  {
    forall j :: 0 <= j < k ==> !Truthy(cands[j])
  }

  /**
   * The value of `cands[0] || cands[1] || ... || last`: the first truthy
   * candidate, or `last` when none is truthy.
   */
  function OrElse(cands: seq<Option<string>>, last: string): (r: string)
    ensures NoneTruthyBefore(cands, |cands|) ==> r == last
    ensures forall k :: 0 <= k < |cands| && Truthy(cands[k]) && NoneTruthyBefore(cands, k) ==> r == cands[k].value
    ensures last != "" ==> r != ""
    decreases |cands|
  {
    if |cands| == 0 then last
    else if Truthy(cands[0]) then cands[0].value
    else
      var rest := OrElse(cands[1..], last);
      assert forall k :: 1 <= k < |cands| && NoneTruthyBefore(cands, k) ==> NoneTruthyBefore(cands[1..], k - 1);
      rest
  }

  /**
   * A slug as it may appear on a fetched document: missing (`undefined`),
   * `null`, a bare string (the homepage projects `slug.current` into `slug`),
   * or the raw slug object `{current}` whose `current` may itself be missing.
   */
  datatype SlugValue = Undefined | Null | Text(s: string) | SlugObject(current: Option<string>)

  /** JavaScript truthiness of a slug value: objects are always truthy, strings iff non-empty. */
  predicate SlugTruthy(v: SlugValue) {
    match v
    case Undefined => false
    case Null => false
    case Text(s) => s != ""
    case SlugObject(_) => true
  }

  /** The text `${v}` inserts into a template literal. */
  function TemplateText(v: SlugValue): (t: string)
    ensures v.Text? ==> t == v.s
    ensures !v.Text? ==> t in {"undefined", "null", "[object Object]"}
  {
    match v
    case Undefined => "undefined"
    case Null => "null"
    case Text(s) => s
    case SlugObject(_) => "[object Object]"
  }
}

=== FILE: navigation.dfy ===
/**
 * The pagination controls under the "Latest Articles" list: whether the
 * navigation bar appears, whether Previous and Next are links, and where
 * those links point.
 */
module Navigation {
  import opened Wrappers
  import JsNumber
  import opened Pagination

  /** A Previous/Next control: an active link, or the greyed-out label. */
  datatype Control = Disabled | Link(href: string)

  /** The navigation bar: Previous, the "Page current of totalPages" label, and Next. */
  datatype Nav = Nav(previous: Control, current: int, totalPages: nat, next: Control)

  const PageQueryPrefix: string := "/?page="

  /** The Previous control of page `current`: page 2 links to the bare homepage. */
  function PreviousControl(current: int): (c: Control)
    ensures c.Link? <==> current > 1
  {
    if current > 1 then
      Link(if current == 2 then "/" else PageQueryPrefix + JsNumber.NumberToString(current - 1))
    else Disabled
  }

  /** The Next control of page `current` when the list has `totalPages` pages. */
  function NextControl(current: int, totalPages: nat): (c: Control)
    ensures c.Link? <==> current < totalPages
  {
    if current < totalPages then Link(PageQueryPrefix + JsNumber.NumberToString(current + 1))
    else Disabled
  }

  /**
   * The navigation bar for page `current` of a list of `totalArticles`
   * articles: present exactly when the list needs more than one page.
   */
  function NavigationBar(current: int, totalArticles: nat): (r: Option<Nav>)
    ensures r.Some? <==> TotalPages(totalArticles) >= 2
    ensures r.Some? ==> r.value.current == current && r.value.totalPages == TotalPages(totalArticles)
    ensures r.Some? ==> (r.value.previous.Link? <==> current > 1)
    ensures r.Some? ==> (r.value.next.Link? <==> current < TotalPages(totalArticles))
    ensures r.Some? ==> r.value.previous == PreviousControl(current) && r.value.next == NextControl(current, TotalPages(totalArticles))
  {
    if totalArticles > ArticlesPerPage then
      var totalPages := TotalPages(totalArticles);
      Some(Nav(PreviousControl(current), current, totalPages, NextControl(current, totalPages)))
    else None
  }

  /**
   * The `page` search parameter of a link target of the two shapes used
   * here: `/?page=<text>` carries `<text>`, `/` carries none.
   */
  function PageParamOf(href: string): (p: PageParam)
    ensures p.One? ==> href == PageQueryPrefix + p.text
    ensures p.Absent? ==> !(|href| >= |PageQueryPrefix| && href[..|PageQueryPrefix|] == PageQueryPrefix)
    ensures !p.Many?
  {
    if |href| >= |PageQueryPrefix| && href[..|PageQueryPrefix|] == PageQueryPrefix then One(href[|PageQueryPrefix|..])
    else Absent
  }

  /** Following an enabled Previous link shows the page before the current one. */
  lemma PreviousLinkShowsPreviousPage(current: int)
    requires current > 1
    ensures current == 2 ==> PreviousControl(current) == Link("/")
    ensures current > 2 ==> PreviousControl(current) == Link(PageQueryPrefix + JsNumber.NumberToString(current - 1))
    ensures CurrentPage(PageParamOf(PreviousControl(current).href)) == current - 1
  {
    if current == 2 {
      assert PageParamOf("/") == Absent;
      MissingPageIsFirstPage();
    } else {
      var text := JsNumber.NumberToString(current - 1);
      assert (PageQueryPrefix + text)[|PageQueryPrefix|..] == text;
      CurrentPageReadsNumberText(current - 1);
    }
  }

  /**
   * Following an enabled Next link shows the page after the current one;
   * from page -1 the link names page 0, which is shown as page 1.
   */
  lemma NextLinkShowsNextPage(current: int, totalPages: nat)
    requires current < totalPages
    ensures NextControl(current, totalPages) == Link(PageQueryPrefix + JsNumber.NumberToString(current + 1))
    ensures CurrentPage(PageParamOf(NextControl(current, totalPages).href)) == (if current == -1 then 1 else current + 1)
  {
    var text := JsNumber.NumberToString(current + 1);
    assert (PageQueryPrefix + text)[|PageQueryPrefix|..] == text;
    CurrentPageReadsNumberText(current + 1);
  }
}

=== FILE: pagination.dfy ===
/**
 * The homepage's pagination arithmetic: which page is requested, which
 * half-open index range of the newest-first article list it fetches, and how
 * many pages the whole list needs.
 */
module Pagination {
  import opened Wrappers
  import JsNumber

  /** Number of articles on one page of the "Latest Articles" list. */
  const ArticlesPerPage: nat := 20

  /**
   * The `page` search parameter as the page component receives it: missing,
   * one value, or several values when the key is repeated in the URL.
   */
  datatype PageParam = Absent | One(text: string) | Many(texts: seq<string>)

  /** `xs` joined with commas, as `String` converts an array. */
  function JoinWithCommas(xs: seq<string>): (r: string)
    ensures |xs| == 0 ==> r == ""
    ensures |xs| > 0 ==> |r| >= |xs[0]| && r[..|xs[0]|] == xs[0]
    ensures |xs| > 1 ==> |r| > |xs[0]| && r[|xs[0]|] == ','
  {
    if |xs| == 0 then ""
    else if |xs| == 1 then xs[0]
    else xs[0] + "," + JoinWithCommas(xs[1..])
  }

  /** The string `parseInt` converts its argument to. */
  function ParamText(p: PageParam): (r: string)
    ensures p.One? ==> r == p.text
    ensures p.Many? && |p.texts| > 0 ==> |r| >= |p.texts[0]| && r[..|p.texts[0]|] == p.texts[0]
  {
    match p
    case Absent => "undefined"
    case One(text) => text
    case Many(texts) => JoinWithCommas(texts)
  }

  /**
   * `parseInt(searchParams?.page) || 1`: NaN and zero fall back to page 1;
   * any other integer, negative ones included, is kept as it is.
   */
  function CurrentPage(p: PageParam): (page: int)
    ensures page != 0
    ensures var parsed := JsNumber.ParseInt(ParamText(p));
            parsed == Some(page) || (page == 1 && (parsed == None || parsed == Some(0)))
  {
    match JsNumber.ParseInt(ParamText(p))
    case None => 1
    case Some(k) => if k == 0 then 1 else k
  }

  /** Without a `page` parameter the homepage shows page 1. */
  lemma MissingPageIsFirstPage()
    ensures CurrentPage(Absent) == 1
  {
    var text := ParamText(Absent);
    assert forall i :: 0 <= i < |text| ==> !JsNumber.IsDecimalDigit(text[i]);
    JsNumber.ParseIntWithoutDigitsIsNaN(text);
  }

  /** The page number written into a link is the page the homepage then shows, unless it is 0. */
  lemma CurrentPageReadsNumberText(k: int)
    ensures CurrentPage(One(JsNumber.NumberToString(k))) == (if k == 0 then 1 else k)
  {
    JsNumber.ParseIntInvertsNumberToString(k);
  }

  /** A negative page number is kept as it is, not clamped. */
  lemma NegativePageIsKept()
    ensures CurrentPage(One("-3")) == -3
  {
    assert JsNumber.ParseInt(ParamText(One("-3"))) == Some(-3) by {
      assert "-3" == JsNumber.NumberToString(-3);
      JsNumber.ParseIntInvertsNumberToString(-3);
    }
  }

  /** White space before the parameter's text does not change the page. */
  lemma LeadingWhiteSpaceIsIgnored(c: char, text: string)
    requires JsNumber.IsStrWhiteSpace(c)
    ensures CurrentPage(One([c] + text)) == CurrentPage(One(text))
  {
    JsNumber.ParseIntSkipsLeadingWhiteSpace(c, text);
  }

  /**
   * Text after a page number is ignored (`?page=3abc` shows page 3), unless
   * it continues the digits or turns a lone `0` into a hex prefix.
   */
  lemma TrailingTextIsIgnored(k: int, rest: string)
    requires rest == [] || !JsNumber.IsDecimalDigit(rest[0])
    requires k == 0 && rest != [] ==> rest[0] != 'x' && rest[0] != 'X'
    ensures CurrentPage(One(JsNumber.NumberToString(k) + rest)) == (if k == 0 then 1 else k)
  {
    JsNumber.ParseIntReadsNumberText(k, rest);
  }

  /** A parameter without a single digit gives page 1. */
  lemma NonNumericPageIsFirstPage(text: string)
    requires forall i :: 0 <= i < |text| ==> !JsNumber.IsDecimalDigit(text[i])
    ensures CurrentPage(One(text)) == 1
  {
    JsNumber.ParseIntWithoutDigitsIsNaN(text);
  }

  /** A repeated `page` key is read through its first value: `?page=a&page=b` shows page `a`. */
  lemma RepeatedKeyReadsFirstValue(first: string, more: seq<string>)
    requires |more| > 0
    ensures CurrentPage(Many([first] + more)) == CurrentPage(One(first))
  {
    var xs := [first] + more;
    assert xs[1..] == more;
    assert ParamText(Many(xs)) == first + ("," + JoinWithCommas(more));
    JsNumber.ParseIntStopsAtComma(first, "," + JoinWithCommas(more));
  }

  /** A `0x` prefix switches to hexadecimal: `?page=0x1A` shows page 26. */
  lemma HexPageIsRead(digits: string)
    requires |digits| > 0 && JsNumber.AllRadixDigits(digits, true)
    ensures var value := JsNumber.DigitsValue(digits, true);
            CurrentPage(One("0x" + digits)) == (if value == 0 then 1 else value)
  {
    JsNumber.ParseIntReadsHexText(digits);
  }

  /** A half-open range `[start, end)` of positions in the newest-first article list. */
  datatype Window = Window(start: int, end: int)

  /** The range `getPaginatedArticles(page)` asks the content store for. */
  function PageWindow(page: int): (w: Window)
    ensures w.end - w.start == ArticlesPerPage
    ensures page >= 1 ==> w.start >= 0
    ensures page <= 0 ==> w.end <= 0
  {
    var startIndex := (page - 1) * ArticlesPerPage;
    Window(startIndex, startIndex + ArticlesPerPage)
  }

  /** Position `i` of the list falls in the window of `page`. */
  predicate OnPage(i: int, page: int) {
    PageWindow(page).start <= i < PageWindow(page).end
  }

  /** `Math.ceil(totalArticles / ARTICLES_PER_PAGE)`. */
  function TotalPages(total: nat): (pages: nat)
    ensures pages * ArticlesPerPage >= total
    ensures total > 0 ==> (pages - 1) * ArticlesPerPage < total
    ensures total == 0 ==> pages == 0
  {
    if total % ArticlesPerPage == 0 then total / ArticlesPerPage
    else total / ArticlesPerPage + 1
  }

  /** The page whose window holds position `i`. */
  function PageOf(i: nat): (page: int)
    ensures page >= 1 && OnPage(i, page)
  {
    i / ArticlesPerPage + 1
  }

  /** Consecutive windows touch: each page starts where the previous one ends. */
  lemma WindowsAreContiguous(page: int)
    ensures PageWindow(page).end == PageWindow(page + 1).start
  {
  }

  /** No position lies in the windows of two different pages. */
  lemma WindowsAreDisjoint(i: int, p: int, q: int)
    requires OnPage(i, p) && OnPage(i, q)
    ensures p == q
  {
  }

  /**
   * The windows of pages `1..TotalPages(total)` partition `[0, total)`: every
   * position is on exactly one of them, every one of them (the last included)
   * holds at least one position, and the windows of later pages hold none.
   */
  lemma PagesPartitionPositions(total: nat)
    ensures forall i :: 0 <= i < total ==> 1 <= PageOf(i) <= TotalPages(total)
    ensures forall i, p :: 0 <= i && OnPage(i, p) ==> p == PageOf(i)
    ensures forall p :: 1 <= p <= TotalPages(total) ==> 0 <= PageWindow(p).start < total
    ensures forall p :: p > TotalPages(total) ==> PageWindow(p).start >= total
  {
    forall i, p | 0 <= i && OnPage(i, p)
      ensures p == PageOf(i)
    {
      WindowsAreDisjoint(i, p, PageOf(i));
    }
  }

  function Min(a: int, b: int): int {
    if a <= b then a else b
  }

  /**
   * The articles the store returns for `page` when the newest-first list is
   * `all`: the window cut down to the positions that exist.
   */
  function PageItems<T>(all: seq<T>, page: int): (items: seq<T>)
    requires page >= 1
    ensures |items| <= ArticlesPerPage
    ensures |items| > 0 ==> PageWindow(page).start + |items| <= |all|
    ensures forall k :: 0 <= k < |items| ==> items[k] == all[PageWindow(page).start + k]
    ensures |items| == ArticlesPerPage || PageWindow(page).start + |items| == |all| || (|items| == 0 && PageWindow(page).start >= |all|)
  {
    var w := PageWindow(page);
    all[Min(w.start, |all|)..Min(w.end, |all|)]
  }

  /** Pages `1..n` shown one after the other. */
  function PagesUpTo<T>(all: seq<T>, n: nat): seq<T> {
    if n == 0 then [] else PagesUpTo(all, n - 1) + PageItems(all, n)
  }

  /** Pages `1..n` together are the first `n * ArticlesPerPage` articles, without gaps or repeats. */
  lemma {:induction false} PagesUpToArePrefix<T>(all: seq<T>, n: nat)
    ensures PagesUpTo(all, n) == all[..Min(n * ArticlesPerPage, |all|)]
  {
    if n > 0 {
      PagesUpToArePrefix(all, n - 1);
      var lo := Min((n - 1) * ArticlesPerPage, |all|);
      var hi := Min(n * ArticlesPerPage, |all|);
      assert PageItems(all, n) == all[lo..hi];
      assert all[..lo] + all[lo..hi] == all[..hi];
    }
  }

  /** Reading every page from 1 to `TotalPages` yields the whole list, in order, each article once. */
  lemma AllPagesReassembleList<T>(all: seq<T>)
    ensures PagesUpTo(all, TotalPages(|all|)) == all
  {
    PagesUpToArePrefix(all, TotalPages(|all|));
  }

  /** The last page holds between 1 and `ArticlesPerPage` articles; with no articles there are no pages. */
  lemma LastPageIsPartlyFilled<T>(all: seq<T>)
    ensures |all| == 0 <==> TotalPages(|all|) == 0
    ensures |all| > 0 ==> 1 <= |PageItems(all, TotalPages(|all|))| <= ArticlesPerPage
  {
  }

  /** A page after the last one comes back empty rather than failing. */
  lemma PagesAfterLastAreEmpty<T>(all: seq<T>, page: int)
    requires page > TotalPages(|all|) && page >= 1
    ensures PageItems(all, page) == []
  {
  }
}

=== FILE: wrappers.dfy ===
/** Optional values: the model's stand-in for JavaScript's `null` and `undefined`. */
module Wrappers {

  datatype Option<+T> = None | Some(value: T)
}
